=== FILE: README.md ===
# Fenrir-s relay: admission and subscription replay (NIP-01)

A Dafny model of `BasicProtocolFlow`, the per-message core of the Fenrir-s
Nostr relay. For each inbound message, it decides what the relay sends back
and what it writes to its event store:

- **EVENT** (`onEvent`). If upstream validation failed, the relay answers
  `OK(id, false, warning)` and does nothing else. Otherwise it does four
  things. First, it computes the *pass list*: the relay owner plus every key
  followed through a `"p"` tag of the owner's contact list (kind 3, NIP-02).
  Second, a first-match `when` sends the event down one of three routes: the
  pass-list path, the policy path (gated on proof of work), or the refusal
  `"invalid: this private relay"`. Third, each path picks one outcome, in its
  own order: duplicate, NIP-13 proof of work, NIP-09 deletion, or normal
  save. Fourth, the `handleEvent` wrapper turns the outcome action's
  `(success, message)` into `OK(id, success, message)`, and an exception
  into `NOTICE("error: …")`.
- **REQ** (`onRequest`). For each filter, the store's matches go out as
  EVENT frames, filter by filter, then one EOSE follows. If validation
  failed, the relay sends only `NOTICE(warning)`.
- **CLOSE** (`onClose`) sends `CLOSED(id)`.
- **Unknown command** (`onUnknown`) sends `NOTICE("Unknown command")` and
  closes the session.

Collaborators are modelled as oracle answers. These are the event store
(`selectById`, `filterList`, `saveEvent`), NIP-09 (`isDeletable`,
`deleteEvent`) and NIP-13 (`isProofOfWorkEvent`, `verifyProofOfWork`).
`Types.Collaborators` holds the answers one admission receives; its `verify`
field answers for each `enabled` flag. The store is a map from event id to
event. Only a `saveEvent` that returns true writes it. Each admission also
records its collaborator calls as a trace (`Types.Call`). That trace is how
the model states which calls happen and which never do.

Modules, one per file: `Types` (types.dfy), `PassLists` (pass_list.dfy),
`Actions` (actions.dfy), `Admission` (admission.dfy), `AdmissionProperties`
(admission_properties.dfy), `Subscriptions` (subscriptions.dfy) and
`Commands` (commands.dfy).

Three behaviours of the code are worth stating plainly:

- **Missing store answer during a REQ.** When `filterList` returns null for
  a filter, the code sends EOSE at once and skips the remaining filters
  (BasicProtocolFlow.kt lines 247–251). `Subscriptions.ReplayStopsAtUnanswered`
  states this early return. A filter that matches nothing (an empty list)
  does not stop the replay.
- **Duplicates are found in the store.** The duplicate check is
  `selectById` against the store; this file has no cache in front of it.
- **The pass list is a list.** A repeated key is kept. The routing only asks
  whether a key is on it, and that answer does not depend on repeats.

The model proves one consequence of the routing rules as written. When
neither `followsPass` nor `allPass` is set, the relay owner's own events are
refused as "private relay". The owner is always on the pass list, so the
third rule never fires for the owner, and the fourth rule excludes the owner
by name (`AdmissionProperties.OwnerRefusedWithoutPassFlags`).

## Model

| member | source | states |
|---|---|---|
| `PassLists.Followed` | src/main/kotlin/org/fenrirs/relay/core/nip01/BasicProtocolFlow.kt:86-87 | a key is among the followed keys exactly when some non-empty tag named "p" carries it at index 1; there are never more keys than tags |
| `PassLists.FollowedAppend` | src/main/kotlin/org/fenrirs/relay/core/nip01/BasicProtocolFlow.kt:86-87 | followed keys keep tag order: the keys of `a + b` are the keys of `a` then the keys of `b` |
| `PassLists.PassList` | src/main/kotlin/org/fenrirs/relay/core/nip01/BasicProtocolFlow.kt:82-89 | the owner is always last on the pass list; with no contact list it is exactly `[owner]`; otherwise it is the first contact list's followed keys then the owner; membership is "owner or followed"; "p" tags must carry index 1 |
| `Actions.Respond` | src/main/kotlin/org/fenrirs/relay/core/nip01/BasicProtocolFlow.kt:149-169 | a finished action is answered with an OK carrying its success flag and message; a thrown one with exactly a NOTICE "error: " + message and no OK |
| `Actions.RespondInjective` | src/main/kotlin/org/fenrirs/relay/core/nip01/BasicProtocolFlow.kt:154-168 | the frame sent determines the action result: two different results never produce the same response |
| `Actions.Save` | src/main/kotlin/org/fenrirs/relay/core/nip01/BasicProtocolFlow.kt:180-181 | the one `saveEvent` call all three actions share: success exactly when the store accepted the write, answered with the success message, with the failure message on a false return, and raised on a throw; the same write appears at lines 196-197 and 216-217 |
| `Actions.NormalAction` | src/main/kotlin/org/fenrirs/relay/core/nip01/BasicProtocolFlow.kt:178-183 | success is reported exactly when the store accepted the event, which is the only change to the store; the message is "" on success, the database error on a failed write, and a save that throws is passed on as the raised exception |
| `Actions.DeletionAction` | src/main/kotlin/org/fenrirs/relay/core/nip01/BasicProtocolFlow.kt:192-202 | deletion runs first and never proof-of-work verification; the event is saved only after a successful deletion; a refused deletion is answered with NIP-09's message; a failed save with the "after deletion" error; a save that throws after a successful deletion is raised; success carries the deletion message |
| `Actions.ProofOfWorkAction` | src/main/kotlin/org/fenrirs/relay/core/nip01/BasicProtocolFlow.kt:212-222 | verification with the given flag runs first; only a valid proof is saved; an invalid one is answered with NIP-13's message; a failed save with the Proof of Work error; a save that throws after a valid proof is raised; success carries "" |
| `Admission.Classify` | src/main/kotlin/org/fenrirs/relay/core/nip01/BasicProtocolFlow.kt:58-72 | closed forms of the first-match rules: pass-listed iff (followsPass ? author on the pass list : allPass); private relay iff (followsPass, author not on the list, proof of work off) or (neither flag, author is the owner, and proof of work off or author on the list); gated otherwise |
| `Admission.PassListStep` | src/main/kotlin/org/fenrirs/relay/core/nip01/BasicProtocolFlow.kt:128-136 | pass-list path order: duplicate iff the id is stored; else proof of work (with enabled = false) iff the event carries one; else deletion iff deletable; else normal; it lists the queries made before the choice |
| `Admission.PolicyStep` | src/main/kotlin/org/fenrirs/relay/core/nip01/BasicProtocolFlow.kt:111-119 | policy path order: duplicate iff stored; else deletion iff deletable; else proof of work with the policy flag; never a save without one of these |
| `Admission.Act` | src/main/kotlin/org/fenrirs/relay/core/nip01/BasicProtocolFlow.kt:130-134 | each non-duplicate outcome runs its own action: the normal save only saves, deletion starts with `deleteEvent`, proof of work starts with `verifyProofOfWork` under the outcome's flag; each keeps the store consistent with its success |
| `Admission.Run` | src/main/kotlin/org/fenrirs/relay/core/nip01/BasicProtocolFlow.kt:129-135 | a path's queries come first; a duplicate is answered with the duplicate refusal after the queries alone, with no further call; any other outcome's action calls follow the queries, and the one frame is the response to that action's result |
| `Admission.Decide` | src/main/kotlin/org/fenrirs/relay/core/nip01/BasicProtocolFlow.kt:111-136 | dispatches to `PassListStep` on the pass-list route, or to `PolicyStep` with the configured proof-of-work flag on the policy route; the decision is a duplicate exactly when the id is stored, and no query before the choice saves |
| `Admission.Perform` | src/main/kotlin/org/fenrirs/relay/core/nip01/BasicProtocolFlow.kt:98-169 | a duplicate is refused with "duplicate: already have this event" and makes no call or write; for every other outcome the one frame sent is `handleEvent`'s response to that outcome's action result, the calls are the action's, and it accepts exactly when its save succeeded, which is the only store change |
| `Admission.OnEvent` | src/main/kotlin/org/fenrirs/relay/core/nip01/BasicProtocolFlow.kt:41-73 | exactly one frame per event; a failed validation gets OK(id, false, warning) with no call and no write; otherwise the contact-list query comes first; an accepting OK is sent iff the store changed, and then only by adding this event; a stored id on a non-private route is a duplicate, after only the contact-list query and the path's queries; a new id on a non-private route gets `handleEvent`'s response to the chosen action's result, after the contact-list query, the path's queries and the action's calls; the private route only queries the contact list |
| `AdmissionProperties.ResubmissionIsDuplicate` | src/main/kotlin/org/fenrirs/relay/core/nip01/BasicProtocolFlow.kt:113-115 | after an event is accepted, it is in the store, and submitting it again under the same policy and contact list is refused as a duplicate with no action and no write |
| `AdmissionProperties.PolicyDeletionSkipsProofOfWork` | src/main/kotlin/org/fenrirs/relay/core/nip01/BasicProtocolFlow.kt:114-117 | on the policy path a new deletable event goes to NIP-09 and never to proof-of-work verification |
| `AdmissionProperties.PassListProofOfWorkBeforeDeletion` | src/main/kotlin/org/fenrirs/relay/core/nip01/BasicProtocolFlow.kt:130-134 | on the pass-list path a new proof-of-work-bearing event is verified with enabled = false and is never checked or handled as a deletion |
| `AdmissionProperties.PassListedNeedsNoProof` | src/main/kotlin/org/fenrirs/relay/core/nip01/BasicProtocolFlow.kt:128-136 | a pass-listed event that carries no proof of work is never sent to verification |
| `AdmissionProperties.GatedSavesOnlyVerified` | src/main/kotlin/org/fenrirs/relay/core/nip01/BasicProtocolFlow.kt:111-119 | on the policy path a save happens only after a successful deletion or a valid proof of work under the configured flag |
| `AdmissionProperties.InvalidProofRefused` | src/main/kotlin/org/fenrirs/relay/core/nip01/BasicProtocolFlow.kt:212-222 | an insufficient proof of work on the policy path is answered OK(id, false, verifier message), and the store is unchanged |
| `AdmissionProperties.FailedDeletionRefused` | src/main/kotlin/org/fenrirs/relay/core/nip01/BasicProtocolFlow.kt:111-136 | on either path that hands a new event to NIP-09 (every deletion on the policy path, one without proof of work on the pass-list path), a refused deletion is answered OK(id, false, NIP-09 message), with no save call and no store change |
| `AdmissionProperties.ThrownSaveIsNotice` | src/main/kotlin/org/fenrirs/relay/core/nip01/BasicProtocolFlow.kt:149-222 | on either admission path, whichever action reached `saveEvent`, a save that throws yields only NOTICE("error: " + reason) and leaves the store unchanged |
| `AdmissionProperties.OwnerRefusedWithoutPassFlags` | src/main/kotlin/org/fenrirs/relay/core/nip01/BasicProtocolFlow.kt:58-72 | with neither followsPass nor allPass set, the owner's own events are refused as "invalid: this private relay" after only the contact-list query |
| `AdmissionProperties.AllPassAcceptsAnyone` | src/main/kotlin/org/fenrirs/relay/core/nip01/BasicProtocolFlow.kt:60 | with allPass on and followsPass off, a new plain event from any author is saved and answered OK(id, true, "") |
| `AdmissionProperties.FollowedAuthorAccepted` | src/main/kotlin/org/fenrirs/relay/core/nip01/BasicProtocolFlow.kt:63 | with followsPass on, an author named by a ["p", A] tag of the owner's contact list has a new plain event accepted with no proof of work |
| `AdmissionProperties.PathsOrderDiffer` | src/main/kotlin/org/fenrirs/relay/core/nip01/BasicProtocolFlow.kt:111-136 | a new event that is both a deletion and proof-of-work-bearing goes to verification with enabled = false on the pass-list path and to NIP-09 on the policy path, which never asks whether an event carries proof of work |
| `Subscriptions.Replay` | src/main/kotlin/org/fenrirs/relay/core/nip01/BasicProtocolFlow.kt:237-262 | a failed validation gets only NOTICE(warning); otherwise every frame but the last is an EVENT for the subscription, and the last is its EOSE |
| `Subscriptions.Frames` | src/main/kotlin/org/fenrirs/relay/core/nip01/BasicProtocolFlow.kt:252-256 | one EVENT frame per event for the subscription, in store order |
| `Subscriptions.Replayed` | src/main/kotlin/org/fenrirs/relay/core/nip01/BasicProtocolFlow.kt:246-257 | the replayed frames are all EVENT frames for the request's subscription |
| `Subscriptions.SendEvents` | src/main/kotlin/org/fenrirs/relay/core/nip01/BasicProtocolFlow.kt:252-256 | the loop over one filter's matches appends exactly one EVENT frame per match, in order, after what was already sent |
| `Subscriptions.OnRequest` | src/main/kotlin/org/fenrirs/relay/core/nip01/BasicProtocolFlow.kt:237-262 | the filter loop, including its early return, sends exactly the replay the functional definition describes |
| `Subscriptions.ReplayAllAnswered` | src/main/kotlin/org/fenrirs/relay/core/nip01/BasicProtocolFlow.kt:246-258 | when every filter is answered, the reply is all matches, filter by filter in store order, then one EOSE: the sum of the match counts plus one frames, even when some filter matches nothing |
| `Subscriptions.ReplayStopsAtUnanswered` | src/main/kotlin/org/fenrirs/relay/core/nip01/BasicProtocolFlow.kt:247-251 | a filter the store does not answer ends the replay there: the reply equals the reply to the filters before it |
| `Subscriptions.EmptyAnswerContinues` | src/main/kotlin/org/fenrirs/relay/core/nip01/BasicProtocolFlow.kt:252-256 | a filter with an empty answer, at any position, adds no frame and does not stop the replay |
| `Subscriptions.ExactlyOneEose` | src/main/kotlin/org/fenrirs/relay/core/nip01/BasicProtocolFlow.kt:244-258 | a validated request gets exactly one EOSE, for its own subscription |
| `Commands.OnClose` | src/main/kotlin/org/fenrirs/relay/core/nip01/BasicProtocolFlow.kt:272-275 | CLOSE is answered with CLOSED(id); the session stays open and the store is untouched |
| `Commands.OnUnknown` | src/main/kotlin/org/fenrirs/relay/core/nip01/BasicProtocolFlow.kt:283-286 | an unknown command gets NOTICE("Unknown command") and the session is closed |
| `Commands.Handle` | src/main/kotlin/org/fenrirs/relay/core/nip01/BasicProtocolFlow.kt:41-286 | the session is closed exactly for an unknown command; only an EVENT changes the store, and only by adding its event; an EVENT gets one frame; a REQ ends with EOSE or is refused with NOTICE |

## Left out

- WebSocket session, `RelayResponse` JSON framing and `toClient`: the frames are a returned sequence; `session.close()` is the `closesSession` flag.
- `runBlocking` and coroutine suspension: no semantic content here; the model is sequential.
- Filter matching, filter ordering and the SQL store internals: each `filterList` answer is an oracle. This includes the owner's kind-3 query and each REQ filter.
- NIP-09 deletion and NIP-13 difficulty algorithms: their answers are oracle values. The events `deleteEvent` itself removes from the store are not modelled. The model tracks only the writes this file performs.
- Exceptions thrown outside `handleEvent`'s `try` are not modelled. In `onEvent` these come from `filterList` in `getPassList`, `selectById`, `isDeletable` and `isProofOfWorkEvent`; in the source they escape `onEvent`. In `onRequest` it is `filterList` at line 247: a throw there escapes after some EVENT frames may already have gone out, and no EOSE follows. In the model those collaborators always answer (`Subscriptions.FilterResult` has no thrown case), so `Subscriptions.Replay`'s closing EOSE and `Subscriptions.ExactlyOneEose` hold only for a store that answers or returns null.
- `PassLists.PassList`: a `"p"` tag with no second element makes `it[1]` throw in the source. The model requires every `"p"` tag to have at least two elements instead of modelling that crash.
- `event.id!!` on a null id, and a null exception message ("error: null"): the model gives every event an id and every exception a message.
- `Environment` configuration loading, logging and colour codes: the policy is the immutable `Types.Config` value.

=== FILE: actions.dfy ===
/** The three outcome actions (normal save, NIP-09 deletion, NIP-13 proof of
    work) and the `handleEvent` wrapper that turns an action's result into
    the one frame sent back to the client. */
module Actions {
  import opened Types

  /** What an action passed to `handleEvent` produced: a `(success, message)`
      pair, or an exception with its message. */
  datatype ActionResult = Finished(success: bool, message: string) | Raised(message: string)

  /** An action's result, the collaborator calls it made and the store after it. */
  datatype Completion = Completion(result: ActionResult, calls: seq<Call>, store: Store)

  /** The action reported success. */
  predicate Succeeded(r: Completion) {
    r.result.Finished? && r.result.success
  }

  /** The action called `saveEvent` and the store reported the write. */
  predicate Stored(c: Collaborators, r: Completion) {
    SaveEvent in r.calls && c.save == Returned(true)
  }

  /** The invariant every action keeps: it reports success exactly when the
      store accepted the event, and the store changes only by that write. */
  predicate Consistent(e: Event, c: Collaborators, store: Store, r: Completion) {
    && (Succeeded(r) <==> Stored(c, r))
    && r.store == (if Stored(c, r) then store[e.id := e] else store)
  }

  /** `handleEvent`: a `(true, m)` result becomes an accepting OK, `(false, m)`
      a refusing OK, and an exception a NOTICE prefixed with "error: ". */
  function Respond(id: EventId, a: ActionResult): (m: Message)
    ensures m.Ok? <==> a.Finished?
    ensures m.Notice? <==> a.Raised?
    ensures a.Finished? ==> m == Ok(id, a.success, a.message)
    ensures a.Raised? ==> m == Notice(ErrorPrefix + a.message)
  {
    match a
    case Finished(success, message) => Ok(id, success, message)
    case Raised(message) => Notice(ErrorPrefix + message)
  }

  /** The frame determines the action result: no two results share a response. */
  lemma RespondInjective(id: EventId, a: ActionResult, b: ActionResult)
    requires Respond(id, a) == Respond(id, b)
    ensures a == b
  {
    if a.Raised? {
      var m := Respond(id, a).message;
      assert a.message == m[|ErrorPrefix|..];
      assert b.message == m[|ErrorPrefix|..];
    }
  }

  /** The `saveEvent` call shared by all three actions, with the messages for
      a successful and a failed write. */
  function Save(e: Event, c: Collaborators, store: Store, saved: string, failed: string): (r: Completion)
    ensures r.calls == [SaveEvent]
    ensures Consistent(e, c, store, r)
    ensures c.save == Returned(true) ==> r.result == Finished(true, saved)
    ensures c.save == Returned(false) ==> r.result == Finished(false, failed)
    ensures c.save.Threw? ==> r.result == Raised(c.save.reason)
  {
    match c.save
    case Returned(ok) =>
      if ok then Completion(Finished(true, saved), [SaveEvent], store[e.id := e])
      else Completion(Finished(false, failed), [SaveEvent], store)
    case Threw(reason) => Completion(Raised(reason), [SaveEvent], store)
  }

  /** `handleNormalEvent`: save, answering "" or the database error. */
  function NormalAction(e: Event, c: Collaborators, store: Store): (r: Completion)
    ensures Consistent(e, c, store, r)
    ensures r.calls == [SaveEvent]
    ensures c.save == Returned(false) ==> r.result == Finished(false, SaveFailedMessage)
    ensures Succeeded(r) ==> r.result.message == ""
    ensures c.save.Threw? ==> r.result == Raised(c.save.reason)
  {
    Save(e, c, store, "", SaveFailedMessage)
  }

  /** `handleDeletableEvent`: run the NIP-09 deletion; only when it succeeds
      is the deletion event itself saved, answered with the deletion message. */
  function DeletionAction(e: Event, c: Collaborators, store: Store): (r: Completion)
    ensures Consistent(e, c, store, r)
    ensures |r.calls| > 0 && r.calls[0] == DeleteEvent
    ensures forall en :: VerifyProofOfWork(en) !in r.calls
    ensures SaveEvent in r.calls <==> c.deletion.Returned? && c.deletion.value.success
    ensures c.deletion.Returned? && !c.deletion.value.success ==>
      r.result == Finished(false, c.deletion.value.message)
    ensures c.deletion.Returned? && c.deletion.value.success && c.save == Returned(false) ==>
      r.result == Finished(false, SaveAfterDeletionFailedMessage)
    ensures Succeeded(r) ==> r.result.message == c.deletion.value.message
    ensures c.deletion.Threw? ==> r.result == Raised(c.deletion.reason)
    ensures c.deletion.Returned? && c.deletion.value.success && c.save.Threw? ==>
      r.result == Raised(c.save.reason)
  {
    match c.deletion
    case Threw(reason) => Completion(Raised(reason), [DeleteEvent], store)
    case Returned(v) =>
      if v.success then
        var s := Save(e, c, store, v.message, SaveAfterDeletionFailedMessage);
        Completion(s.result, [DeleteEvent] + s.calls, s.store)
      else Completion(Finished(false, v.message), [DeleteEvent], store)
  }

  /** `handleProofOfWorkEvent`: verify the NIP-13 difficulty with the given
      `enabled` flag; only a valid proof is saved, answered with "". */
  function ProofOfWorkAction(e: Event, c: Collaborators, store: Store, enabled: bool): (r: Completion)
    ensures Consistent(e, c, store, r)
    ensures |r.calls| > 0 && r.calls[0] == VerifyProofOfWork(enabled)
    ensures DeleteEvent !in r.calls
    ensures SaveEvent in r.calls <==> c.verify(enabled).Returned? && c.verify(enabled).value.success
    ensures c.verify(enabled).Returned? && !c.verify(enabled).value.success ==>
      r.result == Finished(false, c.verify(enabled).value.message)
    ensures c.verify(enabled).Returned? && c.verify(enabled).value.success && c.save == Returned(false) ==>
      r.result == Finished(false, SaveProofOfWorkFailedMessage)
    ensures Succeeded(r) ==> r.result.message == ""
    ensures c.verify(enabled).Threw? ==> r.result == Raised(c.verify(enabled).reason)
    ensures c.verify(enabled).Returned? && c.verify(enabled).value.success && c.save.Threw? ==>
      r.result == Raised(c.save.reason)
  {
    match c.verify(enabled)
    case Threw(reason) => Completion(Raised(reason), [VerifyProofOfWork(enabled)], store)
    case Returned(v) =>
      if v.success then
        var s := Save(e, c, store, "", SaveProofOfWorkFailedMessage);
        Completion(s.result, [VerifyProofOfWork(enabled)] + s.calls, s.store)
      else Completion(Finished(false, v.message), [VerifyProofOfWork(enabled)], store)
  }
}

=== FILE: admission.dfy ===
/** `onEvent`: the admission decision for one published event. A first-match
    classification picks the pass-list path, the policy (proof-of-work gated)
    path or the private-relay refusal; each path then picks one outcome in its
    own order, and exactly one frame goes back to the client. */
module Admission {
  import opened Types
  import opened PassLists
  import opened Actions

  /** The three top-level routes of the `when` in `onEvent`. */
  datatype Route = PassListed | Gated | PrivateRelay

  /** The top-level `when`, first match wins:
      1. allPass and not followsPass         -> pass-list path
      2. followsPass and author on pass list -> pass-list path
      3. proof of work on and author not on  -> policy path
      4. not followsPass and author not owner -> policy path
      5. otherwise                            -> private relay */
  function Classify(cfg: Config, author: PubKey, passList: seq<PubKey>): (r: Route)
    ensures r == PassListed <==> (if cfg.followsPass then author in passList else cfg.allPass)
    ensures r == PrivateRelay <==>
      || (cfg.followsPass && author !in passList && !cfg.proofOfWorkEnabled)
      || (!cfg.followsPass && !cfg.allPass && author == cfg.relayOwner
          && (!cfg.proofOfWorkEnabled || author in passList))
    ensures r == Gated <==>
      || (cfg.followsPass && author !in passList && cfg.proofOfWorkEnabled)
      || (!cfg.followsPass && !cfg.allPass
          && (author != cfg.relayOwner || (cfg.proofOfWorkEnabled && author !in passList)))
  {
    if cfg.allPass && !cfg.followsPass then PassListed
    else if cfg.followsPass && author in passList then PassListed
    else if cfg.proofOfWorkEnabled && author !in passList then Gated
    else if !cfg.followsPass && author != cfg.relayOwner then Gated
    else PrivateRelay
  }

  /** The outcome chosen inside a path. */
  datatype Step = Duplicate | ProofOfWork(enabled: bool) | Deletion | Normal

  /** A chosen outcome with the collaborator queries made to choose it. */
  datatype Decision = Decision(step: Step, probes: seq<Call>)

  /** `handlePassListEvent`: duplicate, then a proof-of-work-bearing event
      (verified with the default `enabled = false`), then deletion, then a
      normal save. */
  function PassListStep(e: Event, c: Collaborators, store: Store): (d: Decision)
    ensures d.step == Duplicate <==> e.id in store
    ensures d.step == ProofOfWork(false) <==> e.id !in store && c.proofOfWorkEvent
    ensures d.step == Deletion <==> e.id !in store && !c.proofOfWorkEvent && c.deletable
    ensures d.step == Normal <==> e.id !in store && !c.proofOfWorkEvent && !c.deletable
    ensures d.probes == [SelectById, IsProofOfWorkEvent, IsDeletable][..ProbeCount(d.step, true)]
  {
    if e.id in store then Decision(Duplicate, [SelectById])
    else if c.proofOfWorkEvent then Decision(ProofOfWork(false), [SelectById, IsProofOfWorkEvent])
    else if c.deletable then Decision(Deletion, [SelectById, IsProofOfWorkEvent, IsDeletable])
    else Decision(Normal, [SelectById, IsProofOfWorkEvent, IsDeletable])
  }

  /** `handleEventWithPolicy`: duplicate, then deletion, then proof-of-work
      verification with `enabled` set to the policy flag; there is no
      unverified save on this path. */
  function PolicyStep(e: Event, c: Collaborators, store: Store, enabled: bool): (d: Decision)
    ensures d.step == Duplicate <==> e.id in store
    ensures d.step == Deletion <==> e.id !in store && c.deletable
    ensures d.step == ProofOfWork(enabled) <==> e.id !in store && !c.deletable
    ensures d.step != Normal
    ensures d.probes == [SelectById, IsDeletable][..ProbeCount(d.step, false)]
  {
    if e.id in store then Decision(Duplicate, [SelectById])
    else if c.deletable then Decision(Deletion, [SelectById, IsDeletable])
    else Decision(ProofOfWork(enabled), [SelectById, IsDeletable])
  }

  /** How many of a path's ordered queries run before `step` is chosen. */
  function ProbeCount(step: Step, passListPath: bool): nat {
    match step
    case Duplicate => 1
    case ProofOfWork(_) => 2
    case Deletion => if passListPath then 3 else 2
    case Normal => 3
  }

  /** Everything one admission does: the calls made, the frames sent and the
      store afterwards. */
  datatype Effect = Effect(calls: seq<Call>, out: seq<Message>, store: Store)

  /** The frame was an accepting OK. */
  predicate Accepted(r: Effect) {
    |r.out| == 1 && r.out[0].Ok? && r.out[0].accepted
  }

  /** The action `handleEvent` runs for a chosen non-duplicate outcome. */
  function Act(e: Event, c: Collaborators, store: Store, step: Step): (r: Completion)
    requires step != Duplicate
    ensures Consistent(e, c, store, r)
    ensures |r.calls| > 0
    ensures step == Normal ==> r.calls == [SaveEvent]
    ensures step == Deletion ==> r.calls[0] == DeleteEvent
    ensures step.ProofOfWork? ==> r.calls[0] == VerifyProofOfWork(step.enabled)
  {
    match step
    case ProofOfWork(enabled) => ProofOfWorkAction(e, c, store, enabled)
    case Deletion => DeletionAction(e, c, store)
    case Normal => NormalAction(e, c, store)
  }

  /** Carry out a chosen outcome: a duplicate is refused without any call or
      write; every other outcome runs its action, and the one frame sent is
      `handleEvent`'s response to the action's result. */
  function Perform(e: Event, c: Collaborators, store: Store, step: Step): (r: Effect)
    ensures |r.out| == 1
    ensures step == Duplicate ==> r == Effect([], [Ok(e.id, false, DuplicateMessage)], store)
    ensures step != Duplicate ==>
      var a := Act(e, c, store, step);
      r == Effect(a.calls, [Respond(e.id, a.result)], a.store)
    ensures step != Duplicate ==> |r.calls| > 0
    ensures Accepted(r) <==> SaveEvent in r.calls && c.save == Returned(true)
    ensures r.store == (if Accepted(r) then store[e.id := e] else store)
    ensures r.out[0].Ok? ==> r.out[0].eventId == e.id
  {
    if step == Duplicate then Effect([], [Ok(e.id, false, DuplicateMessage)], store)
    else
      var a := Act(e, c, store, step);
      Effect(a.calls, [Respond(e.id, a.result)], a.store)
  }

  /** Run a path: its queries, then the chosen outcome. */
  function Run(e: Event, c: Collaborators, store: Store, d: Decision): (r: Effect)
    requires SaveEvent !in d.probes
    ensures |d.probes| <= |r.calls| && r.calls[..|d.probes|] == d.probes
    ensures |r.out| == 1
    ensures Accepted(r) <==> SaveEvent in r.calls && c.save == Returned(true)
    ensures r.store == (if Accepted(r) then store[e.id := e] else store)
    ensures r.out[0].Ok? ==> r.out[0].eventId == e.id
    ensures d.step == Duplicate ==> r.out == [Ok(e.id, false, DuplicateMessage)] && r.calls == d.probes
    ensures d.step != Duplicate ==>
      var a := Act(e, c, store, d.step);
      r.out == [Respond(e.id, a.result)] && r.calls == d.probes + a.calls
  {
    var p := Perform(e, c, store, d.step);
    Effect(d.probes + p.calls, p.out, p.store)
  }

  /** The route `onEvent` takes for `e` under `cfg`, given the store's answer
      to the owner's contact-list query. */
  function RouteOf(cfg: Config, e: Event, c: Collaborators): Route
    requires WellFormedContacts(c.contactLists)
  {
    Classify(cfg, e.pubkey, PassList(cfg.relayOwner, c.contactLists))
  }

  /** The in-path decision for a routed event: `handlePassListEvent`'s order
      on the pass-list route, `handleEventWithPolicy`'s with the configured
      proof-of-work flag on the policy route. */
  function Decide(cfg: Config, e: Event, c: Collaborators, store: Store, route: Route): (d: Decision)
    requires route != PrivateRelay
    ensures SaveEvent !in d.probes
    ensures d.step == Duplicate <==> e.id in store
  {
    if route == PassListed then PassListStep(e, c, store)
    else PolicyStep(e, c, store, cfg.proofOfWorkEnabled)
  }

  /** `onEvent`. A failed upstream validation is answered at once and nothing
      else happens; otherwise the pass list is computed, the event is routed,
      and exactly one frame is sent. The store gains the event exactly when
      an accepting OK is sent, and changes in no other way. */
  function OnEvent(cfg: Config, e: Event, status: bool, warning: string, c: Collaborators, store: Store): (r: Effect)
    requires status ==> WellFormedContacts(c.contactLists)
    ensures |r.out| == 1
    ensures !status ==> r == Effect([], [Ok(e.id, false, warning)], store)
    ensures status ==> |r.calls| > 0 && r.calls[0] == QueryContactList
    ensures r.out[0].Ok? ==> r.out[0].eventId == e.id
    ensures Accepted(r) <==> r.store != store
    ensures r.store == store || (e.id !in store && r.store == store[e.id := e])
    ensures Accepted(r) ==> status && SaveEvent in r.calls && c.save == Returned(true)
    ensures status && e.id in store && RouteOf(cfg, e, c) != PrivateRelay ==>
      r.out == [Ok(e.id, false, DuplicateMessage)] && SaveEvent !in r.calls
    ensures status && e.id in store && RouteOf(cfg, e, c) != PrivateRelay ==>
      r.calls == [QueryContactList] + Decide(cfg, e, c, store, RouteOf(cfg, e, c)).probes
    ensures status && RouteOf(cfg, e, c) != PrivateRelay && e.id !in store ==>
      var d := Decide(cfg, e, c, store, RouteOf(cfg, e, c));
      var a := Act(e, c, store, d.step);
      r.out == [Respond(e.id, a.result)] && r.calls == [QueryContactList] + d.probes + a.calls
    ensures status && RouteOf(cfg, e, c) == PrivateRelay ==>
      r == Effect([QueryContactList], [Ok(e.id, false, PrivateRelayMessage)], store)
  {
    if !status then Effect([], [Ok(e.id, false, warning)], store)
    else
      var route := RouteOf(cfg, e, c);
      var r :=
        if route == PrivateRelay then Effect([], [Ok(e.id, false, PrivateRelayMessage)], store)
        else Run(e, c, store, Decide(cfg, e, c, store, route));
      Effect([QueryContactList] + r.calls, r.out, r.store)
  }
}

=== FILE: admission_properties.dfy ===
/** Properties of `onEvent` that relate several calls, or pin down how the
    two admission paths order their checks. */
module AdmissionProperties {
  import opened Types
  import opened PassLists
  import opened Admission

  /** Once an event is accepted, submitting it again under the same policy
      and the same contact list is refused as a duplicate, with nothing saved
      and no action run. */
  lemma ResubmissionIsDuplicate(cfg: Config, e: Event, warning: string, c1: Collaborators, c2: Collaborators, store: Store)
    requires WellFormedContacts(c1.contactLists)
    requires c2.contactLists == c1.contactLists
    requires Accepted(OnEvent(cfg, e, true, warning, c1, store))
    ensures var after := OnEvent(cfg, e, true, warning, c1, store).store;
      && e.id in after && after[e.id] == e
      && OnEvent(cfg, e, true, warning, c2, after)
         == Effect([QueryContactList, SelectById], [Ok(e.id, false, DuplicateMessage)], after)
  {
  }

  /** On the policy path a deletion is never sent to proof-of-work
      verification: it is handed to NIP-09 and nothing else decides it. */
  lemma PolicyDeletionSkipsProofOfWork(cfg: Config, e: Event, warning: string, c: Collaborators, store: Store)
    requires WellFormedContacts(c.contactLists)
    requires RouteOf(cfg, e, c) == Gated && e.id !in store && c.deletable
    ensures var r := OnEvent(cfg, e, true, warning, c, store);
      && r.calls[..4] == [QueryContactList, SelectById, IsDeletable, DeleteEvent]
      && forall en :: VerifyProofOfWork(en) !in r.calls
  {
  }

  /** On the pass-list path a proof-of-work-bearing event is verified with
      `enabled = false` before the deletion check, so it is never treated as
      a deletion even when it is one. */
  lemma PassListProofOfWorkBeforeDeletion(cfg: Config, e: Event, warning: string, c: Collaborators, store: Store)
    requires WellFormedContacts(c.contactLists)
    requires RouteOf(cfg, e, c) == PassListed && e.id !in store && c.proofOfWorkEvent
    ensures var r := OnEvent(cfg, e, true, warning, c, store);
      && r.calls[..4] == [QueryContactList, SelectById, IsProofOfWorkEvent, VerifyProofOfWork(false)]
      && IsDeletable !in r.calls && DeleteEvent !in r.calls
  {
  }

  /** A pass-listed event that carries no proof of work is never verified. */
  lemma PassListedNeedsNoProof(cfg: Config, e: Event, warning: string, c: Collaborators, store: Store)
    requires WellFormedContacts(c.contactLists)
    requires RouteOf(cfg, e, c) == PassListed && !c.proofOfWorkEvent
    ensures forall en :: VerifyProofOfWork(en) !in OnEvent(cfg, e, true, warning, c, store).calls
  {
  }

  /** On the policy path nothing is saved unless NIP-09 deleted it or NIP-13
      verified it under the configured flag. */
  lemma GatedSavesOnlyVerified(cfg: Config, e: Event, warning: string, c: Collaborators, store: Store)
    requires WellFormedContacts(c.contactLists)
    requires RouteOf(cfg, e, c) == Gated
    requires SaveEvent in OnEvent(cfg, e, true, warning, c, store).calls
    ensures var r := OnEvent(cfg, e, true, warning, c, store);
      || (DeleteEvent in r.calls && c.deletion.Returned? && c.deletion.value.success)
      || (VerifyProofOfWork(cfg.proofOfWorkEnabled) in r.calls
          && c.verify(cfg.proofOfWorkEnabled).Returned?
          && c.verify(cfg.proofOfWorkEnabled).value.success)
  {
  }

  /** An insufficient proof of work on the policy path is refused with the
      verifier's message and not stored. */
  lemma InvalidProofRefused(cfg: Config, e: Event, warning: string, c: Collaborators, store: Store, m: string)
    requires WellFormedContacts(c.contactLists)
    requires RouteOf(cfg, e, c) == Gated && e.id !in store && !c.deletable
    requires c.verify(cfg.proofOfWorkEnabled) == Returned(Verdict(false, m))
    ensures OnEvent(cfg, e, true, warning, c, store)
      == Effect([QueryContactList, SelectById, IsDeletable, VerifyProofOfWork(cfg.proofOfWorkEnabled)],
                [Ok(e.id, false, m)], store)
  {
  }

  /** A refused deletion is answered with NIP-09's message and not stored, on
      whichever path hands the event to NIP-09: the policy path for every
      deletion, the pass-list path for one without proof of work. */
  lemma FailedDeletionRefused(cfg: Config, e: Event, warning: string, c: Collaborators, store: Store, m: string)
    requires WellFormedContacts(c.contactLists)
    requires e.id !in store && c.deletable
    requires RouteOf(cfg, e, c) == Gated || (RouteOf(cfg, e, c) == PassListed && !c.proofOfWorkEvent)
    requires c.deletion == Returned(Verdict(false, m))
    ensures var r := OnEvent(cfg, e, true, warning, c, store);
      r.out == [Ok(e.id, false, m)] && r.store == store && SaveEvent !in r.calls
  {
  }

  /** Whichever action reached `saveEvent`, on either path, a save that
      throws yields exactly one NOTICE "error: ..." and no OK; the store is
      unchanged. */
  lemma ThrownSaveIsNotice(cfg: Config, e: Event, warning: string, c: Collaborators, store: Store, reason: string)
    requires WellFormedContacts(c.contactLists)
    requires RouteOf(cfg, e, c) != PrivateRelay && e.id !in store && c.save == Threw(reason)
    requires SaveEvent in OnEvent(cfg, e, true, warning, c, store).calls
    ensures var r := OnEvent(cfg, e, true, warning, c, store);
      r.out == [Notice(ErrorPrefix + reason)] && r.store == store
  {
  }

  /** With neither `followsPass` nor `allPass` set, the relay owner's own
      events are refused as "private relay": the owner is always on the pass
      list, so the third rule misses, and the fourth excludes the owner. */
  lemma OwnerRefusedWithoutPassFlags(cfg: Config, e: Event, warning: string, c: Collaborators, store: Store)
    requires WellFormedContacts(c.contactLists)
    requires !cfg.followsPass && !cfg.allPass && e.pubkey == cfg.relayOwner
    ensures OnEvent(cfg, e, true, warning, c, store)
      == Effect([QueryContactList], [Ok(e.id, false, PrivateRelayMessage)], store)
  {
  }

  /** With `allPass` on and `followsPass` off, a new, plain event from any
      author is saved and accepted with an empty message. */
  lemma AllPassAcceptsAnyone(cfg: Config, e: Event, warning: string, c: Collaborators, store: Store)
    requires WellFormedContacts(c.contactLists)
    requires cfg.allPass && !cfg.followsPass
    requires e.id !in store && !c.proofOfWorkEvent && !c.deletable && c.save == Returned(true)
    ensures OnEvent(cfg, e, true, warning, c, store)
      == Effect([QueryContactList, SelectById, IsProofOfWorkEvent, IsDeletable, SaveEvent],
                [Ok(e.id, true, "")], store[e.id := e])
  {
  }

  /** With `followsPass` on, an author the owner follows through a ["p", A]
      tag publishes a plain event without proof of work. */
  lemma FollowedAuthorAccepted(cfg: Config, e: Event, warning: string, c: Collaborators, store: Store, contacts: Event)
    requires cfg.followsPass
    requires c.contactLists == Some([contacts])
    requires WellFormedTags(contacts.tags) && ["p", e.pubkey] in contacts.tags
    requires e.id !in store && !c.proofOfWorkEvent && !c.deletable && c.save == Returned(true)
    ensures OnEvent(cfg, e, true, warning, c, store).out == [Ok(e.id, true, "")]
  {
  }

  /** The two paths order their checks differently: a new event that is both
      a deletion and proof-of-work-bearing is verified (with enabled = false)
      on the pass-list path but handed to NIP-09 on the policy path, and the
      policy path never asks whether an event carries proof of work. */
  lemma PathsOrderDiffer(e: Event, c: Collaborators, store: Store, enabled: bool)
    requires e.id !in store && c.proofOfWorkEvent && c.deletable
    ensures PassListStep(e, c, store).step == ProofOfWork(false)
    ensures PolicyStep(e, c, store, enabled).step == Deletion
    ensures IsProofOfWorkEvent !in PolicyStep(e, c, store, enabled).probes
  {
  }
}

=== FILE: commands.dfy ===
/** The four entry points of the protocol flow — EVENT, REQ, CLOSE and an
    unknown command — and what each sends back. Only an unknown command
    ends the session; no failure inside `handleEvent`'s `try` closes it. */
module Commands {
  import opened Types
  import opened PassLists
  import Admission
  import Subscriptions

  /** An inbound command, already parsed and validated upstream (`status`,
      `warning`), with the answers the collaborators give while it is handled. */
  datatype Command =
    | EventCommand(event: Event, status: bool, warning: string, answers: Collaborators)
    | RequestCommand(subscriptionId: SubscriptionId, results: seq<Subscriptions.FilterResult>,
                     status: bool, warning: string)
    | CloseCommand(subscriptionId: SubscriptionId)
    | UnknownCommand

  /** The frames sent for a command, whether the session is then closed, and
      the store afterwards. */
  datatype Reply = Reply(out: seq<Message>, closesSession: bool, store: Store)

  /** `onClose`: acknowledge with CLOSED; no store access. */
  function OnClose(sub: SubscriptionId, store: Store): (r: Reply)
    ensures r.out == [Closed(sub)] && !r.closesSession && r.store == store
  {
    Reply([Closed(sub)], false, store)
  }

  /** `onUnknown`: a NOTICE "Unknown command", then the session is closed. */
  function OnUnknown(store: Store): (r: Reply)
    ensures r.out == [Notice(UnknownCommandMessage)] && r.closesSession && r.store == store
  {
    Reply([Notice(UnknownCommandMessage)], true, store)
  }

  /** The requirement `onEvent` places on an EVENT command. */
  predicate Admissible(cmd: Command) {
    cmd.EventCommand? && cmd.status ==> WellFormedContacts(cmd.answers.contactLists)
  }

  /** Handle one command. The session is closed exactly for an unknown
      command; only an EVENT can change the store, and then only by adding
      the event it carries; an EVENT is answered with exactly one frame, and
      a REQ always ends with EOSE or is refused with a NOTICE. */
  function Handle(cfg: Config, store: Store, cmd: Command): (r: Reply)
    requires Admissible(cmd)
    ensures r.closesSession <==> cmd.UnknownCommand?
    ensures !cmd.EventCommand? ==> r.store == store
    ensures cmd.EventCommand? ==>
      && |r.out| == 1
      && (r.store == store || (cmd.event.id !in store && r.store == store[cmd.event.id := cmd.event]))
    ensures cmd.RequestCommand? ==>
      |r.out| > 0 && (r.out[|r.out| - 1] == Eose(cmd.subscriptionId) || r.out == [Notice(cmd.warning)])
    ensures forall k :: 0 <= k < |r.out| && r.out[k].Closed? ==> cmd.CloseCommand?
  {
    match cmd
    case EventCommand(e, status, warning, answers) =>
      var a := Admission.OnEvent(cfg, e, status, warning, answers, store);
      Reply(a.out, false, a.store)
    case RequestCommand(sub, results, status, warning) =>
      Reply(Subscriptions.Replay(sub, status, warning, results), false, store)
    case CloseCommand(sub) => OnClose(sub, store)
    case UnknownCommand => OnUnknown(store)
  }
}

=== FILE: pass_list.dfy ===
/** The pass list: the relay owner plus every key the owner follows in the
    first contact list (kind 3, NIP-02) the store returns for the owner. */
module PassLists {
  import opened Types

  /** A non-empty tag named "p". */
  predicate IsPTag(t: Tag) {
    |t| > 0 && t[0] == "p"
  }

  /** Every "p" tag carries the followed key at index 1. */
  predicate WellFormedTags(tags: seq<Tag>) {
    forall i :: 0 <= i < |tags| && IsPTag(tags[i]) ==> |tags[i]| >= 2
  }

  /** The contact-list query found nothing, or its first event is well formed. */
  predicate WellFormedContacts(found: Option<seq<Event>>) {
    found.Some? && |found.value| > 0 ==> WellFormedTags(found.value[0].tags)
  }

  /** Some "p" tag of `tags` names `k` as the followed key. */
  ghost predicate Names(tags: seq<Tag>, k: PubKey)
    requires WellFormedTags(tags)
  {
    exists i :: 0 <= i < |tags| && IsPTag(tags[i]) && tags[i][1] == k
  }

  /** The followed keys of a tag list: the second element of every "p" tag,
      in tag order. */
  function Followed(tags: seq<Tag>): (r: seq<PubKey>)
    requires WellFormedTags(tags)
    ensures |r| <= |tags|
    ensures forall k :: k in r <==> Names(tags, k)
  {
    if tags == [] then []
    else
      assert WellFormedTags(tags[1..]) by {
        forall i | 0 <= i < |tags[1..]| && IsPTag(tags[1..][i])
          ensures |tags[1..][i]| >= 2
        {
          assert tags[1..][i] == tags[i + 1];
        }
      }
      var rest := Followed(tags[1..]);
      NamesCons(tags);
      if IsPTag(tags[0]) then [tags[0][1]] + rest else rest
  }

  /** A key is named by a non-empty tag list iff the head names it or the
      tail does. */
  lemma NamesCons(tags: seq<Tag>)
    requires tags != [] && WellFormedTags(tags) && WellFormedTags(tags[1..])
    ensures forall k :: Names(tags, k) <==>
      (IsPTag(tags[0]) && tags[0][1] == k) || Names(tags[1..], k)
  {
  }

  /** Followed keys keep tag order: splitting the tag list splits the result. */
  lemma {:induction false} FollowedAppend(a: seq<Tag>, b: seq<Tag>)
    requires WellFormedTags(a) && WellFormedTags(b)
    ensures WellFormedTags(a + b)
    ensures Followed(a + b) == Followed(a) + Followed(b)
  {
    assert WellFormedTags(a + b) by {
      forall i | 0 <= i < |a + b| && IsPTag((a + b)[i])
        ensures |(a + b)[i]| >= 2
      {
        if i >= |a| {
          assert (a + b)[i] == b[i - |a|];
        }
      }
    }
    if a == [] {
      assert a + b == b;
    } else {
      assert WellFormedTags(a[1..]) by {
        forall i | 0 <= i < |a[1..]| && IsPTag(a[1..][i])
          ensures |a[1..][i]| >= 2
        {
          assert a[1..][i] == a[i + 1];
        }
      }
      FollowedAppend(a[1..], b);
      assert (a + b)[1..] == a[1..] + b;
      assert (a + b)[0] == a[0];
    }
  }

  /** `getPassList`: the followed keys of the first contact list the store
      returned, followed by the owner; just the owner when it returned none. */
  function PassList(owner: PubKey, found: Option<seq<Event>>): (r: seq<PubKey>)
    requires WellFormedContacts(found)
    ensures |r| > 0 && r[|r| - 1] == owner
    ensures found.None? || |found.value| == 0 ==> r == [owner]
    ensures found.Some? && |found.value| > 0 ==>
      r == Followed(found.value[0].tags) + [owner]
    ensures forall k :: k in r <==>
      k == owner || (found.Some? && |found.value| > 0 && Names(found.value[0].tags, k))
  {
    match found
    case None => [owner]
    case Some(events) =>
      if |events| == 0 then [owner] else Followed(events[0].tags) + [owner]
  }
}

=== FILE: subscriptions.dfy ===
/** `onRequest`: answering a REQ. Each filter's stored matches are replayed
    as EVENT frames, filter by filter in store order, and the replay ends with
    one EOSE. The store's answer for a filter may be missing (null); the code
    then sends EOSE at once and skips the remaining filters. */
module Subscriptions {
  import opened Types

  /** The store's answer for one filter: its matches, or nothing at all. */
  type FilterResult = Option<seq<Event>>

  /** One EVENT frame per event, in order. */
  function Frames(sub: SubscriptionId, es: seq<Event>): (r: seq<Message>)
    ensures |r| == |es|
    ensures forall k :: 0 <= k < |es| ==> r[k] == EventFrame(sub, es[k])
  {
    seq(|es|, k requires 0 <= k < |es| => EventFrame(sub, es[k]))
  }

  /** The EVENT frames replayed for `results`: each answered filter's matches
      in turn, up to the first filter the store did not answer. */
  function Replayed(sub: SubscriptionId, results: seq<FilterResult>): (r: seq<Message>)
    ensures forall k :: 0 <= k < |r| ==> r[k].EventFrame? && r[k].subscriptionId == sub
  {
    if results == [] then []
    else
      match results[0]
      case None => []
      case Some(es) => Frames(sub, es) + Replayed(sub, results[1..])
  }

  /** The frames `onRequest` sends: a NOTICE with the warning when upstream
      validation failed, otherwise the replay followed by one EOSE. */
  function Replay(sub: SubscriptionId, status: bool, warning: string, results: seq<FilterResult>): (r: seq<Message>)
    ensures !status ==> r == [Notice(warning)]
    ensures status ==> |r| > 0 && r[|r| - 1] == Eose(sub)
    ensures status ==> forall k :: 0 <= k < |r| - 1 ==> r[k].EventFrame? && r[k].subscriptionId == sub
  {
    if status then Replayed(sub, results) + [Eose(sub)] else [Notice(warning)]
  }

  /** Send one EVENT frame per event, in store order. */
  method SendEvents(sent: seq<Message>, sub: SubscriptionId, events: seq<Event>)
    returns (out: seq<Message>)
    ensures out == sent + Frames(sub, events)
  {
    out := sent;
    var j := 0;
    while j < |events|
      invariant 0 <= j <= |events|
      invariant out == sent + Frames(sub, events[..j])
    {
      assert Frames(sub, events[..j + 1]) == Frames(sub, events[..j]) + [EventFrame(sub, events[j])];
      out := out + [EventFrame(sub, events[j])];
      j := j + 1;
    }
    assert events[..j] == events;
  }

  /** Unfolding the replay at position `i`. */
  lemma ReplayedAt(sub: SubscriptionId, results: seq<FilterResult>, i: nat)
    requires i < |results|
    ensures Replayed(sub, results[i..]) ==
      match results[i]
      case None => []
      case Some(es) => Frames(sub, es) + Replayed(sub, results[i + 1..])
  {
  }

  /** `onRequest`, as the loop over the filters with its early return. */
  method OnRequest(sub: SubscriptionId, results: seq<FilterResult>, status: bool, warning: string)
    returns (out: seq<Message>)
    ensures out == Replay(sub, status, warning, results)
  {
    if !status {
      return [Notice(warning)];
    }
    out := [];
    var i := 0;
    while i < |results|
      invariant 0 <= i <= |results|
      invariant Replayed(sub, results) == out + Replayed(sub, results[i..])
    {
      ReplayedAt(sub, results, i);
      if results[i].None? {
        assert Replayed(sub, results) == out;
        out := out + [Eose(sub)];
        return;
      }
      var es := results[i].value;
      assert Replayed(sub, results) == out + Frames(sub, es) + Replayed(sub, results[i + 1..]);
      out := SendEvents(out, sub, es);
      i := i + 1;
    }
    assert results[i..] == [];
    out := out + [Eose(sub)];
  }

  /** All matches of the given filter results, filter by filter. */
  function AllMatches(results: seq<FilterResult>): seq<Event> {
    if results == [] then []
    else (if results[0].Some? then results[0].value else []) + AllMatches(results[1..])
  }

  /** Every filter was answered. */
  predicate AllAnswered(results: seq<FilterResult>) {
    forall k :: 0 <= k < |results| ==> results[k].Some?
  }

  /** When the store answers every filter, the replay is every match, filter
      by filter in store order, then one EOSE: for N filters matching m_1 ..
      m_N events that is m_1 + ... + m_N EVENT frames and one EOSE, whether or
      not some m_k is zero. */
  lemma {:induction false} ReplayAllAnswered(sub: SubscriptionId, results: seq<FilterResult>)
    requires AllAnswered(results)
    ensures Replayed(sub, results) == Frames(sub, AllMatches(results))
    ensures Replay(sub, true, "", results) == Frames(sub, AllMatches(results)) + [Eose(sub)]
    ensures |Replay(sub, true, "", results)| == |AllMatches(results)| + 1
  {
    if results != [] {
      assert AllAnswered(results[1..]) by {
        forall k | 0 <= k < |results[1..]| ensures results[1..][k].Some? {
          assert results[1..][k] == results[k + 1];
        }
      }
      ReplayAllAnswered(sub, results[1..]);
      var es := results[0].value;
      var rest := AllMatches(results[1..]);
      assert Frames(sub, es + rest) == Frames(sub, es) + Frames(sub, rest);
    }
  }

  /** A filter the store did not answer ends the replay: what any later
      filter would have matched is never sent. */
  lemma {:induction false} ReplayStopsAtUnanswered(sub: SubscriptionId, results: seq<FilterResult>, k: nat)
    requires k < |results| && results[k].None?
    ensures Replayed(sub, results) == Replayed(sub, results[..k])
    ensures Replay(sub, true, "", results) == Replay(sub, true, "", results[..k])
  {
    if k == 0 {
      assert results[..k] == [];
    } else {
      assert results[0].Some? ==> results[1..][k - 1] == results[k];
      if results[0].Some? {
        ReplayStopsAtUnanswered(sub, results[1..], k - 1);
        assert results[..k][1..] == results[1..][..k - 1];
      }
    }
  }

  /** A filter with no matches, wherever it stands, contributes nothing and
      the replay goes on with the next filter. */
  lemma {:induction false} EmptyAnswerContinues(sub: SubscriptionId, results: seq<FilterResult>, i: nat)
    requires i <= |results|
    ensures Replayed(sub, results[..i] + [Some([])] + results[i..]) == Replayed(sub, results)
  {
    var s := results[..i] + [Some([])] + results[i..];
    if i == 0 {
      assert s == [Some([])] + results;
      assert s[1..] == results;
    } else {
      assert s[0] == results[0];
      if results[0].Some? {
        var tail := results[1..];
        assert s[1..] == tail[..i - 1] + [Some([])] + tail[i - 1..];
        EmptyAnswerContinues(sub, tail, i - 1);
      }
    }
  }

  /** The replay sends exactly one EOSE, for the request's subscription, and
      it is the last frame. */
  lemma {:induction false} ExactlyOneEose(sub: SubscriptionId, results: seq<FilterResult>)
    ensures var r := Replay(sub, true, "", results);
      multiset(r)[Eose(sub)] == 1 && forall m :: m in r && m.Eose? ==> m == Eose(sub)
  {
  }
}

=== FILE: types.dfy ===
/** Values exchanged by the relay core: events, the relay policy, the wire
    frames it sends, and the answers of the collaborators it consults
    (the event store, NIP-09 deletion and NIP-13 proof of work). */
module Types {

  datatype Option<+T> = None | Some(value: T)

  type PubKey = string
  type EventId = string
  type SubscriptionId = string

  /** A tag is an array of strings; its first element is the tag name. */
  type Tag = seq<string>

  /** A signed event as the relay receives it. The core treats `id` as an
      opaque unique key and never recomputes it. */
  datatype Event = Event(
    id: EventId,
    pubkey: PubKey,
    kind: int,
    createdAt: int,
    tags: seq<Tag>,
    content: string,
    sig: string)

  /** The relay policy, read once from configuration and never changed. */
  datatype Config = Config(
    relayOwner: PubKey,
    allPass: bool,
    followsPass: bool,
    proofOfWorkEnabled: bool)

  /** The persistent event store, keyed by event id. */
  type Store = map<EventId, Event>

  /** The five frames the relay core sends to a client (NIP-01). */
  datatype Message =
    | Ok(eventId: EventId, accepted: bool, message: string)
    | EventFrame(subscriptionId: SubscriptionId, event: Event)
    | Eose(subscriptionId: SubscriptionId)
    | Notice(message: string)
    | Closed(subscriptionId: SubscriptionId)

  /** What a collaborator call did: return a value, or throw with a message. */
  datatype Attempt<+T> = Returned(value: T) | Threw(reason: string)

  /** The `(success, message)` pair of `deleteEvent` and `verifyProofOfWork`. */
  datatype Verdict = Verdict(success: bool, message: string)

  /** The collaborator calls made while admitting one event, as a trace entry. */
  datatype Call =
    | QueryContactList
    | SelectById
    | IsProofOfWorkEvent
    | IsDeletable
    | DeleteEvent
    | VerifyProofOfWork(enabled: bool)
    | SaveEvent

  /** The answers the collaborators give while one event is admitted.
      `contactLists` is the store's answer to "kind 3 events by the relay
      owner"; `verify` answers `verifyProofOfWork` for each `enabled` flag. */
  datatype Collaborators = Collaborators(
    contactLists: Option<seq<Event>>,
    proofOfWorkEvent: bool,
    deletable: bool,
    deletion: Attempt<Verdict>,
    verify: bool -> Attempt<Verdict>,
    save: Attempt<bool>)

  const DuplicateMessage := "duplicate: already have this event"
  const PrivateRelayMessage := "invalid: this private relay"
  const SaveFailedMessage := "error: could not save event to the database"
  const SaveAfterDeletionFailedMessage := "error: could not save event to the database after deletion"
  const SaveProofOfWorkFailedMessage := "error: could not save Proof of Work event"
  const UnknownCommandMessage := "Unknown command"
  const ErrorPrefix := "error: "
}
